=== FILE: README.md ===
# InfoMagic server core in Dafny

A model of the server-side logic of InfoMagic, a kiosk display whose
Express back end serves a slideshow of uploaded images, a five-day weather
forecast and an editable configuration. Five pieces are modelled as pure
functions over immutable data, with the clock, filesystem outcomes, the
network and bcrypt passed in as parameters:

- `Slideshow` (`slideshow.dfy`): the shared `{index, playing}` record and the
  `next` / `prev` / `toggle` control actions.
- `Images` (`images.dfy`): the upload batch with its resolution gate, the
  image listing and the image deletion, over sets of file names standing for
  the `originals/`, `thumbs/` and temp directories.
- `Weather` (`weather.dfy`): the grouping of SMHI time-series points into
  daily summaries and the 30-minute reply cache.
- `Config` (`config.dfy`): the configuration cache with its one-second
  time-to-live, load and save.
- `Auth` (`auth.dfy`): the role check, the credential check and the
  fallback to built-in users.
- `Wrappers` and `Decimal` are helpers (option/result types, the decimal
  rendering used in the low-resolution error message).

What the server code does not do is not modelled: there is no broadcast hub
pushing snapshots to viewers, no persisted image order and no reorder
operation. Ingestion is not atomic: a thumbnail that fails after the rename
leaves the original stored (`Images.ThumbnailFailureKeepsOriginal`).
Deleting a missing image throws instead of being tolerated, and the listing
order is the directory's order.

`deleteImage` is modelled as the function server/images.js:65-70 defines,
although that file does not export it (server/images.js:72). The route in
server/server.js:56-59 therefore passes `undefined` as its handler; Express
throws when such a route is registered, so server/server.js stops while
loading and never reaches `app.listen` (server/server.js:84).

## Model

| member | source | states |
|---|---|---|
| Slideshow.GetState | server/slideshow.js:6-8 | the reply is the current state and the state is not changed |
| Slideshow.Control | server/slideshow.js:10-18 | `next` adds exactly one to the index and keeps `playing`; `prev` steps back one but never below 0; `toggle` flips `playing` and keeps the index; any other action leaves the state unchanged; the reply is always the resulting state |
| Slideshow.NextThenPrev | server/slideshow.js:13-14 | `prev` after `next` returns to the original state from every state |
| Slideshow.ToggleTwice | server/slideshow.js:15 | two toggles restore the original state |
| Slideshow.PrevAtStart | server/slideshow.js:14 | `prev` at index 0 is a no-op |
| Slideshow.RunBounds | server/slideshow.js:10-18 | over any series of actions the index grows by at most the number of `next` actions, and `playing` keeps its starting value exactly when the number of toggles is even |
| Slideshow.RunFromInitial | server/slideshow.js:1-4 | from the initial state `{0, true}` the index never exceeds the number of `next` actions and playback runs iff an even number of toggles happened |
| Config.Load | server/config.js:48-67 | a cached configuration younger than 1000 ms (strict) is returned as is; otherwise a parsed file is cached with the current time and returned, a missing file caches and returns the defaults, and any other failure returns the defaults leaving the cache untouched |
| Config.Save | server/config.js:75-79 | the cache holds the saved configuration stamped with the save time, whether or not the file write succeeds; a write error is passed on |
| Config.FreshLoadIgnoresFile | server/config.js:50-52 | while the cache is fresh the result does not depend on the file at all |
| Config.SaveThenLoad | server/config.js:69-79 | after saving `cfg` at time `t`, every load at a time before `t + 1000` returns exactly `cfg` |
| Config.SaveExpires | server/config.js:48-58 | at exactly `t + 1000` the saved value has expired and a load returns what the file holds |
| Config.LoadThenLoad | server/config.js:54-66 | a load that read the file or fell back on a missing file is repeated from memory within 1000 ms; an unreadable file leaves an empty cache empty, so the next load reads again |
| Config.MissingFileDefaults | server/config.js:6-17 | without a configuration file the minimum long side is 1280 and the defaults are cached |
| Config.LoadSources | server/config.js:25-45 | the returned configuration is the cached one, the parsed one, or the defaults |
| Images.Step | server/images.js:21-48 | each file's reply entry carries its own name, and it is `ok` iff its temp file was there, the image passed the gate, the rename into `originals/` succeeded and its thumbnail was written |
| Images.StepEffect | server/images.js:25-44 | one file adds at most its own name to `originals` and `thumbs`, only after passing the gate and being renamed, and only a successful file adds a thumbnail; `ok` entries carry no error and failed ones do |
| Images.HandleUpload | server/images.js:16-52 | the reply has exactly one entry per uploaded file, in upload order, tagged with that file's name |
| Images.UploadOnlyAdds | server/images.js:35-44 | a batch never removes stored images and only adds names of its own files; it only consumes temp files |
| Images.UploadSplits | server/images.js:20-49 | a failing file does not stop the batch: processing a batch equals processing its two halves one after the other |
| Images.UploadEntry | server/images.js:20-48 | reply entry `i` is the outcome of file `i` against the files the earlier ones left |
| Images.UploadResults | server/images.js:22-47 | with one fresh temp file per upload, a file is reported stored iff it passes the gate, is renamed and its thumbnail is written |
| Images.UploadLibrary | server/images.js:35-44 | with fresh temp files, `originals` gains exactly the names passing the gate whose rename succeeds, and `thumbs` exactly the names reported stored; a repeated name is stored once |
| Images.RejectedFileLeavesLibrary | server/images.js:25-33 | a file below the minimum long side is reported with the low-resolution message, its temp file is removed and the library is unchanged |
| Images.FailedOperationLeavesStore | server/images.js:22-47 | a missing temp file, unreadable metadata, a failed removal of a rejected temp file or a failed rename is reported as a failure carrying the thrown message (sharp's missing-input message, the metadata error, or the message of the failed `unlinkSync` or `renameSync`) and changes no directory |
| Images.GateBoundary | server/images.js:23-25 | a long side equal to the minimum passes the gate (the comparison is strict) |
| Images.ThumbnailFailureKeepsOriginal | server/images.js:38-47 | when the thumbnail fails after the rename, the entry reports the thumbnail's error yet the original stays stored without a thumbnail |
| Images.ReuploadOverwrites | server/images.js:35-38 | uploading a name that is already stored leaves the set of stored names unchanged |
| Images.ListImages | server/images.js:54-63 | the listing drops names starting with `.`, and every other listed name yields one entry with `id = f`, `original = /images/originals/f`, `thumb = /images/thumbs/f` |
| Images.ListImagesOrder | server/images.js:55-57 | entries appear in the order of their names in the directory listing |
| Images.ListImagesComplete | server/images.js:55-61 | every listed name not starting with `.` has an entry |
| Images.ListedIds | server/images.js:55-58 | the listed ids are exactly the stored originals whose names do not start with `.` |
| Images.DeleteImage | server/images.js:65-70 | a missing original throws and changes nothing; a missing thumbnail throws after the original was removed; otherwise both files are removed and the reply is `{ok: true}` |
| Images.UploadThenDelete | server/images.js:38-68 | storing a new image and deleting it restores both directories |
| Images.UploadRequest | server/images.js:16-52 | an upload first loads the configuration through its cache, leaves behind the cache that load produced, and checks every file of the batch against the configuration that load returned, with one reply entry per file |
| Images.DefaultGate | server/images.js:22-33 | under the default configuration a 1279-pixel image is refused with the message naming 1280 and a 1280-pixel image is stored |
| Decimal.NatToStringRoundTrip | server/images.js:30 | the decimal rendering of the required minimum in the error message reads back as that number |
| Decimal.IntToStringInjective | server/images.js:30 | different minimums give different messages |
| Weather.DateKey | server/weather.js:70 | the day key is the first ten characters of the time stamp (all of it when shorter) |
| Weather.IsoHours | server/weather.js:71-74 | for an ISO time stamp a point is dropped iff its hour is before 6 |
| Weather.Group | server/weather.js:67-97 | the grouping holds distinct days, each with at least one temperature and as many symbols as temperatures |
| Weather.GroupMatchesReference | server/weather.js:69-97 | the grouping has one bucket per day in order of first appearance, holding exactly that day's daytime temperatures and symbols, and a precipitation flag set iff one of its points has `pmean > 0` or `pcat > 0` |
| Weather.DatesCover | server/weather.js:70-83 | a day is listed iff some point of it is not in the small hours |
| Weather.DatesFirstAppearance | server/weather.js:76-83 | a day listed earlier has a daytime point before every daytime point of a day listed later |
| Weather.DatesDistinct | server/weather.js:76-83 | no day is listed twice |
| Weather.Min | server/weather.js:103 | the minimum is one of the temperatures and no temperature is lower |
| Weather.Max | server/weather.js:104 | the maximum is one of the temperatures and no temperature is higher |
| Weather.Best | server/weather.js:109-114 | the chosen code is a candidate with the highest count and the lowest code among equal counts |
| Weather.Mode | server/weather.js:108-114 | the day's symbol occurs in the day, no code occurs more often, and among equally frequent codes it is the lowest |
| Weather.ModeUnique | server/weather.js:113-114 | those properties determine the symbol uniquely |
| Weather.Summarize | server/weather.js:102-123 | a day summary has `min <= max`, both drawn from the day's temperatures and bounding all of them, the day's precipitation flag and a most frequent symbol |
| Weather.Aggregate | server/weather.js:99-124 | at most five days, the first five in order of first appearance, each with the temperature range, precipitation flag and symbol of exactly its own daytime points |
| Weather.AggregateDistinct | server/weather.js:100-101 | the reported days are distinct |
| Weather.AggregateDaysOccur | server/weather.js:76-90 | every reported day has at least one daytime point |
| Weather.GetWeather | server/weather.js:53-128 | a cached reply younger than 30 minutes is returned without fetching (an empty day list counts as cached); otherwise a fetched series replaces the cache, stamped with the time it arrived, and a failed fetch propagates its error leaving the cache as it was |
| Weather.CachedWithinWindow | server/weather.js:54-56 | after a fetch, every request within 30 minutes of its arrival gets the same reply whatever the network would say |
| Weather.FailedFetchRetries | server/weather.js:58 | a failed fetch does not touch the cache |
| Auth.LoadUsers | server/auth.js:19-35 | the stored users when the file has a non-empty `users` array; the built-in admin and editor accounts when the file is missing, unreadable, unparsable, or its `users` is missing or empty |
| Auth.LoadUsersStable | server/auth.js:19-35 | a users file holding what a load returned loads back as the same, non-empty list: if the defaults were written to the file, they would load back as stored users |
| Auth.FindUser | server/auth.js:39 | the position of the first user with the given name, or none when no user has it |
| Auth.VerifyCredentials | server/auth.js:37-51 | a login succeeds iff the first user with that name has a hash the password matches, and then yields only that user's name and role |
| Auth.FirstRecordWins | server/auth.js:39-48 | a later record with the same name is never tried, even if its hash would match |
| Auth.DefaultAccounts | server/auth.js:10-17 | without a users file, `admin` and `editor` log in with the default password and get their own roles |
| Auth.RequireRole | server/auth.js:53-63 | no session user gives 401 `Ej inloggad`; a role outside the allowed list gives 403 `Åtkomst nekad`; the 401 check comes first; an allowed role passes the request on exactly once with no reply |
| Auth.RequireRoleMonotone | server/auth.js:55-61 | a request admitted by a role list is admitted by every larger list, and the 401 answer does not depend on the list |

## Left out

- File contents, decoding, rotation, resizing and thumbnail encoding by sharp, and multer's temp files: the image size and the thumbnail outcome are inputs to each upload.
- The absolute directory paths: `originalname` is used as a plain key; what `path.join` makes of names containing `/` or `..` is not modelled.
- Images.DeleteImage: the text of Node's `ENOENT` errors is modelled without the file paths it ends with, and an `unlinkSync` that throws for another reason (a permission error) is not modelled.
- Images.Step: the messages of a failed `unlinkSync`, `renameSync` or thumbnail write are inputs, and the message sharp throws for a missing input file is taken to be `Input file is missing:` followed by the path.
- Images.Step: the low-resolution message shows the plain decimal of `Number(minimum)`, whereas server/images.js:30 interpolates the setting as stored; a minimum stored as a text such as `"02000"`, `"2e3"` or `"2000 "`, or a number of 1e21 or more (printed in exponent form), yields a different message text in the source. The configuration keeps only the numeric view of the setting.
- Images.RejectedFileLeavesLibrary: the message it states is the plain decimal rendering described for Images.Step, which equals the source's text only when the stored minimum is a JSON integer below 1e21.
- Images.HandleUpload: a request that is not `multipart/form-data` leaves `req.files` unset, so the `for … of` at server/images.js:20 throws a `TypeError` before any reply, and the rejected async handler never answers; the model's batch is always a sequence of files.
- Images.Step: an image whose metadata lacks a width or height (where `Math.max` yields `NaN` and the gate never fires) is not modelled; dimensions are natural numbers.
- Concurrency between overlapping requests (the upload loop awaits between files); requests are processed one at a time.
- The HTTPS fetch to SMHI, its timeouts and JSON parsing (server/weather.js:14-50): network I/O, replaced by a fetch outcome parameter.
- Weather.Summarize: the mean wind speed is omitted; it is a floating-point average.
- Weather.Aggregate: temperatures and precipitation amounts are integers in a fixed unit rather than floating-point numbers; only their order and sign are used.
- Weather.Aggregate: every point is assumed to carry the `t`, `Wsymb2`, `pmean` and `pcat` parameters; missing ones (JavaScript `undefined`) are not modelled.
- Weather.Mode: the source returns the winning code as the decimal string key of `symbolCounts`; the model returns the number. Codes are assumed to be array-index keys (below 2^32 - 1), as SMHI's 1-27 are.
- Weather.Group: day keys that are array-index strings (ten digits, no dash) would be listed before the others by `Object.entries`; the model keeps first-appearance order throughout, which is what ISO dates get.
- Weather.IsNight: JavaScript `Number()` on the hour text is modelled for texts of at most two characters (which `slice(11, 13)` always yields), with whitespace, sign, decimal point and `NaN`; exponent and hexadecimal forms cannot occur at that length. Time stamps are assumed to be ASCII: `slice` counts UTF-16 code units while Dafny strings index characters, so `Weather.DateKey` and `Weather.HourText` agree with the source only when no character outside the Basic Multilingual Plane precedes position 13.
- Config.Load: a configuration file whose JSON is `null`, `false`, `0` or `""` (cached but falsy) is not modelled; the file is assumed to hold an object.
- Config.Load: a numeric setting whose `Number()` is not an integer (such as `1280.5`) is not modelled; the fields hold integers or `NaN`.
- Config.Load: configuration objects are shared by reference: the cache returns the very object it holds, including the default object itself when the file is missing, and the config route in server/server.js:49-51 merges into that object in place with `Object.assign`, so its edit shows in later loads that fall back to the defaults. The model's configurations are values and do not capture this aliasing.
- Config.Load: the configuration's own content is reduced to the fields the server reads or defaults; arbitrary extra keys merged in by the config route are not modelled.
- `Date.now()`: every clock reading is a parameter.
- bcrypt hashing and comparison (server/auth.js:3, 8, 45): the password check is an oracle and the default hash a parameter.
- A users file whose `users` is not an array, or whose records lack fields, is not modelled.
- server/server.js (routing, sessions, static files, the login role coercion and the config merge) and server/system.js (shell commands) are not part of this model.

=== FILE: auth.dfy ===
/**
 * The authorization decisions of server/auth.js. Reading `config/users.json`
 * becomes a parameter describing what was found there, and bcrypt's
 * password comparison becomes an oracle `matches(password, hash)`.
 */
module Auth {
  import opened Wrappers

  /** A stored user record. */
  datatype User = User(username: string, role: string, passwordHash: string)

  /** What a successful login reveals: never the password hash. */
  datatype Identity = Identity(username: string, role: string)

  /** What `loadUsers` finds on disk. */
  datatype UsersFile =
    | Absent                              // the file does not exist
    | Unreadable                          // a read error, invalid JSON, or a document that is not an object
    | Document(users: Option<seq<User>>)  // a parsed object; `None` when it has no `users` array

  /** The two built-in accounts, both with the hash of the default password computed at start-up. */
  function DefaultUsers(defaultHash: string): seq<User> {
    [User("admin", "admin", defaultHash), User("editor", "editor", defaultHash)]
  }

  /** `loadUsers`: the stored users when there are any, otherwise the two defaults. */
  function LoadUsers(file: UsersFile, defaultHash: string): (users: seq<User>)
    ensures |users| > 0
    ensures file.Document? && file.users.Some? && |file.users.value| > 0 ==> users == file.users.value
    ensures !(file.Document? && file.users.Some? && |file.users.value| > 0) ==> users == DefaultUsers(defaultHash)
  {
    match file
    case Absent => DefaultUsers(defaultHash)
    case Unreadable => DefaultUsers(defaultHash)
    case Document(users) =>
      if users.None? || |users.value| == 0 then DefaultUsers(defaultHash) else users.value
  }

  /**
   * Loading is stable: a users file holding what a load produced (the stored
   * list, or the defaults) loads back as the same list.
   */
  lemma LoadUsersStable(file: UsersFile, defaultHash: string)
    ensures var users := LoadUsers(file, defaultHash);
      LoadUsers(Document(Some(users)), defaultHash) == users
  {
  }

  /** `users.find(u => u.username === username)`: the position of the first user with that name. */
  function FindUser(users: seq<User>, username: string): (r: Option<nat>)
    ensures r.Some? ==> r.value < |users| && users[r.value].username == username
    ensures r.Some? ==> forall j :: 0 <= j < r.value ==> users[j].username != username
    ensures r.None? ==> forall j :: 0 <= j < |users| ==> users[j].username != username
    decreases |users|
  {
    if |users| == 0 then None
    else if users[0].username == username then Some(0)
    else
      match FindUser(users[1..], username)
      case None => None
      case Some(k) => Some(k + 1)
  }

  /**
   * `verifyCredentials`: only the first user with the given name is
   * considered, and only its hash is compared with the password.
   */
  function VerifyCredentials(file: UsersFile, defaultHash: string, username: string, password: string,
                             matches: (string, string) -> bool): (r: Option<Identity>)
    ensures var users := LoadUsers(file, defaultHash);
      r.Some? <==> exists i :: 0 <= i < |users| && users[i].username == username
                              && (forall j :: 0 <= j < i ==> users[j].username != username)
                              && matches(password, users[i].passwordHash)
    ensures var users := LoadUsers(file, defaultHash);
      r.Some? ==> exists i :: 0 <= i < |users| && users[i].username == username
                           && (forall j :: 0 <= j < i ==> users[j].username != username)
                           && r.value == Identity(username, users[i].role)
  {
    var users := LoadUsers(file, defaultHash);
    match FindUser(users, username)
    case None => None
    case Some(i) =>
      if !matches(password, users[i].passwordHash) then None
      else Some(Identity(users[i].username, users[i].role))
  }

  /**
   * A second record with the same user name is never consulted: if the first
   * one's hash does not match, the login fails even when the second's would.
   */
  lemma FirstRecordWins(first: User, second: User, password: string, defaultHash: string,
                        matches: (string, string) -> bool)
    requires first.username == second.username
    requires !matches(password, first.passwordHash) && matches(password, second.passwordHash)
    ensures VerifyCredentials(Document(Some([first, second])), defaultHash, first.username, password, matches).None?
  {
    var users := [first, second];
    assert FindUser(users, first.username) == Some(0);
  }

  /** With no users file, the built-in accounts log in with the default password's hash. */
  lemma DefaultAccounts(defaultHash: string, password: string, matches: (string, string) -> bool)
    requires matches(password, defaultHash)
    ensures VerifyCredentials(Absent, defaultHash, "admin", password, matches) == Some(Identity("admin", "admin"))
    ensures VerifyCredentials(Absent, defaultHash, "editor", password, matches) == Some(Identity("editor", "editor"))
  {
    var users := DefaultUsers(defaultHash);
    assert FindUser(users, "admin") == Some(0);
    assert users[1..][0].username == "editor";
    assert FindUser(users[1..], "editor") == Some(0);
    assert "admin" != "editor";
    assert FindUser(users, "editor") == Some(1);
  }

  /** The user stored in the session by the login route; only the role is consulted. */
  datatype SessionUser = SessionUser(role: string)

  /** What the middleware does: answer with an error, or pass the request on exactly once. */
  datatype Decision = Respond(status: int, error: string) | CallNext

  /** `requireRole(allowed)` applied to a request whose session holds `user`. */
  function RequireRole(allowed: seq<string>, user: Option<SessionUser>): (d: Decision)
    ensures user.None? ==> d == Respond(401, "Ej inloggad")
    ensures user.Some? && user.value.role !in allowed ==> d == Respond(403, "Åtkomst nekad")
    ensures d == CallNext <==> user.Some? && user.value.role in allowed
  {
    if user.None? then Respond(401, "Ej inloggad")
    else if user.value.role !in allowed then Respond(403, "Åtkomst nekad")
    else CallNext
  }

  /** A request passes exactly the role lists that name its role; without a login it passes none. */
  lemma RequireRoleMonotone(a: seq<string>, b: seq<string>, user: Option<SessionUser>)
    requires forall x :: x in a ==> x in b
    ensures RequireRole(a, user) == CallNext ==> RequireRole(b, user) == CallNext
    ensures RequireRole(a, user) == Respond(401, "Ej inloggad") <==> RequireRole(b, user) == Respond(401, "Ej inloggad")
  {
  }
}

=== FILE: config.dfy ===
/**
 * The configuration cache of server/config.js. The module keeps the last
 * configuration it saw together with the clock reading at which it was
 * stored; a load within the time-to-live answers from memory, otherwise it
 * reads the file. The clock and the outcome of reading and parsing the file
 * are parameters. `loadConfig` and `loadConfigAsync` (and likewise the two
 * save functions) follow the same steps and share one model.
 */
module Config {
  import opened Wrappers

  datatype Calendar = Calendar(
    calendarId: string,
    view: string,
    showTitle: bool,
    showNav: bool,
    showDate: bool,
    showTz: bool)

  /**
   * A configuration object, with its numeric fields as the server's
   * comparisons see them. A numeric field is `Some(Number(value))`: JavaScript's
   * `<` converts its operands, so `"2000"` counts as 2000, `true` as 1 and
   * `null` as 0. It is `None` when that conversion gives `NaN` (the key is
   * missing, or holds `undefined`, a plain object or a non-numeric text); every
   * comparison with it is then false.
   */
  datatype Config = Config(
    minImageLongSide: Option<int>,
    slideshowInterval: Option<int>,
    calendar: Option<Calendar>)

  const DefaultConfig: Config := Config(
    Some(1280),
    Some(15),
    Some(Calendar("xxxxxxxx@group.calendar.google.com", "WEEK", false, false, false, false)))

  /** Milliseconds a cached configuration stays valid. */
  const CacheTtl: int := 1000

  /** What reading and parsing `config/config.json` produced. */
  datatype ReadOutcome =
    | Parsed(config: Config)   // the file held a JSON object
    | NotFound                 // the read failed with `ENOENT`
    | Unreadable               // any other read error, or invalid JSON

  /** The module-level `configCache` and `configCacheTime`. */
  datatype Cache = Cache(entry: Option<Config>, time: int)

  const InitialCache: Cache := Cache(None, 0)

  /** The cached configuration may be answered at clock reading `now`. */
  predicate Fresh(c: Cache, now: int) {
    c.entry.Some? && now - c.time < CacheTtl
  }

  /** A load: the configuration returned and the cache left behind. */
  datatype Loaded = Loaded(config: Config, cache: Cache)

  function Load(c: Cache, now: int, read: ReadOutcome): (r: Loaded)
    // a fresh cache answers and stays as it is
    ensures Fresh(c, now) ==> r.config == c.entry.value && r.cache == c
    // a successful read is cached and returned
    ensures !Fresh(c, now) && read.Parsed? ==> r.config == read.config && r.cache == Cache(Some(read.config), now)
    // a missing file caches the defaults
    ensures !Fresh(c, now) && read.NotFound? ==> r.config == DefaultConfig && r.cache == Cache(Some(DefaultConfig), now)
    // any other failure returns the defaults without touching the cache
    ensures !Fresh(c, now) && read.Unreadable? ==> r.config == DefaultConfig && r.cache == c
  {
    if c.entry.Some? && now - c.time < CacheTtl then
      Loaded(c.entry.value, c)
    else
      match read
      case Parsed(cfg) => Loaded(cfg, Cache(Some(cfg), now))
      case NotFound => Loaded(DefaultConfig, Cache(Some(DefaultConfig), now))
      case Unreadable => Loaded(DefaultConfig, c)
  }

  /** A save: the cache is replaced first, then the file is written; a write error propagates. */
  datatype Saved = Saved(cache: Cache, written: Result<(), string>)

  function Save(c: Cache, cfg: Config, now: int, write: Result<(), string>): (r: Saved)
    ensures r.cache.entry == Some(cfg) && r.cache.time == now
    ensures r.written == write
  {
    Saved(Cache(Some(cfg), now), write)
  }

  /** While the cache is fresh the file is never consulted: the read outcome is irrelevant. */
  lemma FreshLoadIgnoresFile(c: Cache, now: int, read1: ReadOutcome, read2: ReadOutcome)
    requires Fresh(c, now)
    ensures Load(c, now, read1) == Load(c, now, read2)
  {
  }

  /**
   * After saving `cfg` at time `t`, every load strictly before `t + 1000`
   * returns exactly `cfg`, whatever the file holds and whether the write succeeded.
   */
  lemma SaveThenLoad(c: Cache, cfg: Config, t: int, write: Result<(), string>, later: int, read: ReadOutcome)
    requires later < t + CacheTtl
    ensures Load(Save(c, cfg, t, write).cache, later, read).config == cfg
  {
  }

  /** At exactly `t + 1000` the cache has expired and the file decides again. */
  lemma SaveExpires(c: Cache, cfg: Config, t: int, write: Result<(), string>, read: ReadOutcome)
    requires read.Parsed?
    ensures Load(Save(c, cfg, t, write).cache, t + CacheTtl, read).config == read.config
  {
  }

  /**
   * A load that read or defaulted successfully is repeated from memory within
   * the time-to-live; an unreadable file leaves an empty cache empty, so the
   * next load reads again.
   */
  lemma LoadThenLoad(c: Cache, now: int, read: ReadOutcome, later: int, read2: ReadOutcome)
    requires !Fresh(c, now)
    requires now <= later < now + CacheTtl
    ensures !read.Unreadable? ==> Load(Load(c, now, read).cache, later, read2).config == Load(c, now, read).config
    ensures read.Unreadable? && c.entry.None? ==> Load(Load(c, now, read).cache, later, read2) == Load(c, later, read2)
  {
  }

  /** Without a configuration file the upload gate demands a long side of 1280 pixels. */
  lemma MissingFileDefaults(c: Cache, now: int)
    requires !Fresh(c, now)
    ensures Load(c, now, NotFound).config.minImageLongSide == Some(1280)
    ensures Fresh(Load(c, now, NotFound).cache, now)
  {
  }

  /** The configuration a load returns is the cached one, the parsed one, or the defaults. */
  lemma LoadSources(c: Cache, now: int, read: ReadOutcome)
    ensures var r := Load(c, now, read);
      (c.entry.Some? && r.config == c.entry.value)
      || (read.Parsed? && r.config == read.config)
      || r.config == DefaultConfig
  {
  }
}

=== FILE: decimal.dfy ===
/** Decimal rendering of integers, as a JavaScript template literal `${n}` prints an integral number. */
module Decimal {

  predicate IsDigit(c: char) {
    '0' <= c <= '9'
  }

  function DigitChar(d: nat): (c: char)
    requires d < 10
    ensures IsDigit(c)
  {
    "0123456789"[d]
  }

  function DigitValue(c: char): nat
    requires IsDigit(c)
  {
    c as nat - '0' as nat
  }

  /** The shortest decimal spelling of `n`: digits only, no leading zero unless `n` is 0. */
  function NatToString(n: nat): (s: string)
    ensures |s| > 0
    ensures forall i :: 0 <= i < |s| ==> IsDigit(s[i])
    ensures n > 0 ==> s[0] != '0'
  {
    if n < 10 then [DigitChar(n)] else NatToString(n / 10) + [DigitChar(n % 10)]
  }

  /** Negative numbers get a leading minus sign. */
  function IntToString(n: int): (s: string)
    ensures |s| > 0
  {
    if n < 0 then "-" + NatToString(-n) else NatToString(n)
  }

  /** The value of a string of decimal digits, read left to right. */
  function ParseDigits(s: string): nat
    requires forall i :: 0 <= i < |s| ==> IsDigit(s[i])
  {
    if |s| == 0 then 0 else ParseDigits(s[..|s| - 1]) * 10 + DigitValue(s[|s| - 1])
  }

  /** Reading back the rendering of a natural number gives the number. */
  lemma {:induction false} NatToStringRoundTrip(n: nat)
    ensures ParseDigits(NatToString(n)) == n
  {
    var s := NatToString(n);
    if n < 10 {
      assert s == [DigitChar(n)];
      assert s[..0] == [];
    } else {
      NatToStringRoundTrip(n / 10);
      var p := NatToString(n / 10);
      assert s == p + [DigitChar(n % 10)];
      assert s[..|s| - 1] == p;
    }
  }

  /** A rendering of a natural number never starts with a minus sign. */
  lemma NatToStringUnsigned(n: nat)
    ensures NatToString(n)[0] != '-'
  {
    assert IsDigit(NatToString(n)[0]);
  }

  /** Different natural numbers render differently. */
  lemma NatToStringInjective(a: nat, b: nat)
    requires NatToString(a) == NatToString(b)
    ensures a == b
  {
    NatToStringRoundTrip(a);
    NatToStringRoundTrip(b);
  }

  /** Different integers render differently, so the rendering loses nothing. */
  lemma {:induction false} IntToStringInjective(a: int, b: int)
    requires IntToString(a) == IntToString(b)
    ensures a == b
  {
    var s := IntToString(a);
    if a < 0 && b < 0 {
      var sa := NatToString(-a);
      var sb := NatToString(-b);
      assert s == "-" + sa && s == "-" + sb;
      assert sa == s[1..] == sb;
      NatToStringInjective(-a, -b);
    } else if a >= 0 && b >= 0 {
      NatToStringInjective(a, b);
    } else if a < 0 {
      assert s == "-" + NatToString(-a);
      assert s == NatToString(b);
      NatToStringUnsigned(b);
    } else {
      assert s == NatToString(a);
      assert s == "-" + NatToString(-b);
      NatToStringUnsigned(a);
    }
  }
}

=== FILE: images.dfy ===
/**
 * The image library of server/images.js. The two directories `originals/`
 * and `thumbs/` are sets of file names, and the upload temp directory is a
 * set of temp paths. Decoding an image's size and writing its thumbnail are
 * outcomes supplied with each uploaded file; everything else the handlers do
 * to the filesystem (rename, unlink) is modelled on the sets.
 */
module Images {
  import opened Wrappers
  import Decimal
  import Config

  /** The files the handlers can see. */
  datatype Store = Store(temp: set<string>, originals: set<string>, thumbs: set<string>)

  datatype Dims = Dims(width: nat, height: nat)

  /** What a filesystem or image operation does: it succeeds or throws with a message. */
  datatype FsOutcome = Succeeds | Throws(message: string)

  /**
   * One uploaded file: the client's file name, the temp path it was stored
   * under, and what each operation on it would do when its temp file is
   * there: reading its metadata (dimensions, or the thrown message),
   * unlinking the temp file after a rejection (`discard`), renaming it into
   * `originals/` (`move`, which can fail for instance with `EXDEV` when the
   * temp directory is on another filesystem), and writing its 320x320
   * thumbnail.
   */
  datatype Upload = Upload(
    originalname: string,
    path: string,
    metadata: Result<Dims, string>,
    discard: FsOutcome,
    move: FsOutcome,
    thumbnail: FsOutcome)

  /** One entry of the reply: the file name, whether it was stored, and the error text if not. */
  datatype FileResult = FileResult(file: string, ok: bool, error: Option<string>)

  /** The reply to a whole batch together with the files left behind. */
  datatype Batch = Batch(results: seq<FileResult>, store: Store)

  function LongSide(d: Dims): nat {
    if d.width < d.height then d.height else d.width
  }

  /**
   * The resolution gate: the long side is strictly below the configured
   * minimum. The comparison converts the minimum with JavaScript's `Number`;
   * when that gives `NaN` (the `None` case) the comparison is false and the
   * gate never rejects.
   */
  predicate TooSmall(cfg: Config.Config, d: Dims) {
    cfg.minImageLongSide.Some? && LongSide(d) < cfg.minImageLongSide.value
  }

  function LowResolutionMessage(min: int): string {
    "För låg upplösning (krav " + Decimal.IntToString(min) + "px)"
  }

  /** The text of Node's `ENOENT` error for a system call (the path suffix is left out). */
  function MissingFileMessage(syscall: string): string {
    "ENOENT: no such file or directory, " + syscall
  }

  /** The text sharp throws when its input file does not exist. */
  function MissingInputMessage(path: string): string {
    "Input file is missing: " + path
  }

  /** The image is large enough (or no minimum applies). */
  predicate PassesGate(cfg: Config.Config, u: Upload) {
    u.metadata.Ok? && !TooSmall(cfg, u.metadata.value)
  }

  /** The image passes the gate and its temp file can be renamed into `originals/`. */
  predicate Moves(cfg: Config.Config, u: Upload) {
    PassesGate(cfg, u) && u.move.Succeeds?
  }

  /** One iteration of the upload loop, including its `catch`. */
  function Step(cfg: Config.Config, st: Store, u: Upload): (r: (FileResult, Store))
    ensures r.0.file == u.originalname
    // success means the temp file was there, the image passed the gate and was renamed, and its thumbnail was written
    ensures r.0.ok <==> u.path in st.temp && Moves(cfg, u) && u.thumbnail.Succeeds?
  {
    if u.path !in st.temp then
      // reading the metadata of a missing file already throws
      (FileResult(u.originalname, false, Some(MissingInputMessage(u.path))), st)
    else
      match u.metadata
      case Err(message) =>
        (FileResult(u.originalname, false, Some(message)), st)
      case Ok(d) =>
        if TooSmall(cfg, d) then
          match u.discard
          case Succeeds =>
            (FileResult(u.originalname, false, Some(LowResolutionMessage(cfg.minImageLongSide.value))),
             st.(temp := st.temp - {u.path}))
          case Throws(message) =>
            (FileResult(u.originalname, false, Some(message)), st)
        else
          match u.move
          case Throws(message) =>
            (FileResult(u.originalname, false, Some(message)), st)
          case Succeeds =>
            var renamed := st.(temp := st.temp - {u.path}, originals := st.originals + {u.originalname});
            match u.thumbnail
            case Succeeds =>
              (FileResult(u.originalname, true, None), renamed.(thumbs := renamed.thumbs + {u.originalname}))
            case Throws(message) =>
              (FileResult(u.originalname, false, Some(message)), renamed)
  }

  /** What one iteration does to the files: it adds at most its own name, and only after the gate and the rename. */
  lemma StepEffect(cfg: Config.Config, st: Store, u: Upload)
    ensures var (res, st') := Step(cfg, st, u);
      && (res.ok <==> res.error.None?)
      && (st'.originals == st.originals || st'.originals == st.originals + {u.originalname})
      && (st'.originals != st.originals ==> Moves(cfg, u) && u.path in st.temp)
      && (st'.thumbs == st.thumbs || st'.thumbs == st.thumbs + {u.originalname})
      && (st'.thumbs != st.thumbs ==> res.ok)
      && (res.ok ==> u.originalname in st'.originals && u.originalname in st'.thumbs)
      && (st'.temp == st.temp || st'.temp == st.temp - {u.path})
      && (Moves(cfg, u) && u.path in st.temp ==> u.originalname in st'.originals)
  {
  }

  /**
   * `handleUpload`: the files are processed one after the other, each against
   * the files the earlier ones left, and every file contributes exactly one
   * reply entry, in upload order, whatever happened to it.
   */
  function HandleUpload(cfg: Config.Config, st: Store, batch: seq<Upload>): (r: Batch)
    ensures |r.results| == |batch|
    ensures forall i :: 0 <= i < |batch| ==> r.results[i].file == batch[i].originalname
    decreases |batch|
  {
    if |batch| == 0 then Batch([], st)
    else
      var step := Step(cfg, st, batch[0]);
      var rest := HandleUpload(cfg, step.1, batch[1..]);
      Batch([step.0] + rest.results, rest.store)
  }

  /** The names of the files in a batch. */
  function Names(batch: seq<Upload>): set<string> {
    set i | 0 <= i < |batch| :: batch[i].originalname
  }

  /** A batch only ever adds names of its own files to the library, and only consumes temp files. */
  lemma {:induction false} UploadOnlyAdds(cfg: Config.Config, st: Store, batch: seq<Upload>)
    ensures var r := HandleUpload(cfg, st, batch).store;
      && st.originals <= r.originals <= st.originals + Names(batch)
      && st.thumbs <= r.thumbs <= st.thumbs + Names(batch)
      && r.temp <= st.temp
    decreases |batch|
  {
    if |batch| > 0 {
      var step := Step(cfg, st, batch[0]);
      StepEffect(cfg, st, batch[0]);
      UploadOnlyAdds(cfg, step.1, batch[1..]);
      assert Names(batch) == {batch[0].originalname} + Names(batch[1..]) by {
        forall n | n in Names(batch) ensures n in {batch[0].originalname} + Names(batch[1..]) {
          var i :| 0 <= i < |batch| && batch[i].originalname == n;
          if i > 0 { assert batch[1..][i - 1] == batch[i]; }
        }
        forall n | n in Names(batch[1..]) ensures n in Names(batch) {
          var i :| 0 <= i < |batch[1..]| && batch[1..][i].originalname == n;
          assert batch[1..][i] == batch[i + 1];
        }
      }
    }
  }

  /**
   * A failure in one file does not stop the batch: processing two batches in
   * a row is the same as processing their concatenation.
   */
  lemma {:induction false} UploadSplits(cfg: Config.Config, st: Store, a: seq<Upload>, b: seq<Upload>)
    ensures var ra := HandleUpload(cfg, st, a);
            var rb := HandleUpload(cfg, ra.store, b);
            HandleUpload(cfg, st, a + b) == Batch(ra.results + rb.results, rb.store)
    decreases |a|
  {
    if |a| == 0 {
      assert a + b == b;
    } else {
      var step := Step(cfg, st, a[0]);
      var tail := a[1..];
      assert (a + b)[0] == a[0] && (a + b)[1..] == tail + b;
      UploadSplits(cfg, step.1, tail, b);
      var ra' := HandleUpload(cfg, step.1, tail);
      var rb := HandleUpload(cfg, ra'.store, b);
      assert [step.0] + (ra'.results + rb.results) == ([step.0] + ra'.results) + rb.results;
    }
  }

  /** Entry `i` of the reply is the outcome of file `i` against what the files before it left. */
  lemma UploadEntry(cfg: Config.Config, st: Store, batch: seq<Upload>, i: nat)
    requires i < |batch|
    ensures var before := HandleUpload(cfg, st, batch[..i]).store;
            HandleUpload(cfg, st, batch).results[i] == Step(cfg, before, batch[i]).0
  {
    var before := HandleUpload(cfg, st, batch[..i]);
    var rest := batch[i..];
    assert batch == batch[..i] + rest;
    UploadSplits(cfg, st, batch[..i], rest);
    assert rest[0] == batch[i];
  }

  /** The multer guarantee: every file of the batch has its own temp file. */
  predicate FreshTempFiles(st: Store, batch: seq<Upload>) {
    && (forall i :: 0 <= i < |batch| ==> batch[i].path in st.temp)
    && (forall i, j :: 0 <= i < j < |batch| ==> batch[i].path != batch[j].path)
  }

  /** Names of files that pass the gate and are renamed, and of those whose thumbnail is also written. */
  function MovedNames(cfg: Config.Config, batch: seq<Upload>): set<string> {
    set i | 0 <= i < |batch| && Moves(cfg, batch[i]) :: batch[i].originalname
  }

  function StoredNames(cfg: Config.Config, batch: seq<Upload>): set<string> {
    set i | 0 <= i < |batch| && Moves(cfg, batch[i]) && batch[i].thumbnail.Succeeds? :: batch[i].originalname
  }

  /** Dropping the first file of a batch keeps each file's own temp file. */
  lemma FreshTempFilesTail(cfg: Config.Config, st: Store, batch: seq<Upload>)
    requires |batch| > 0 && FreshTempFiles(st, batch)
    ensures FreshTempFiles(Step(cfg, st, batch[0]).1, batch[1..])
  {
    var st1 := Step(cfg, st, batch[0]).1;
    var tail := batch[1..];
    StepEffect(cfg, st, batch[0]);
    forall i | 0 <= i < |tail| ensures tail[i].path in st1.temp {
      assert tail[i] == batch[i + 1];
    }
    forall i, j | 0 <= i < j < |tail| ensures tail[i].path != tail[j].path {
      assert tail[i] == batch[i + 1] && tail[j] == batch[j + 1];
    }
  }

  /** With fresh temp files, a file is reported stored iff it passes the gate and its thumbnail is written. */
  lemma {:induction false} UploadResults(cfg: Config.Config, st: Store, batch: seq<Upload>)
    requires FreshTempFiles(st, batch)
    ensures var r := HandleUpload(cfg, st, batch);
      forall i :: 0 <= i < |batch| ==>
        (r.results[i].ok <==> Moves(cfg, batch[i]) && batch[i].thumbnail.Succeeds?)
    decreases |batch|
  {
    if |batch| > 0 {
      var st1 := Step(cfg, st, batch[0]).1;
      var tail := batch[1..];
      FreshTempFilesTail(cfg, st, batch);
      UploadResults(cfg, st1, tail);
      var r := HandleUpload(cfg, st, batch);
      forall i | 0 <= i < |batch|
        ensures r.results[i].ok <==> Moves(cfg, batch[i]) && batch[i].thumbnail.Succeeds?
      {
        if i > 0 { assert tail[i - 1] == batch[i]; }
      }
    }
  }

  lemma MovedNamesSplit(cfg: Config.Config, batch: seq<Upload>)
    requires |batch| > 0
    ensures MovedNames(cfg, batch)
      == (if Moves(cfg, batch[0]) then {batch[0].originalname} else {}) + MovedNames(cfg, batch[1..])
  {
    var tail := batch[1..];
    forall n | n in MovedNames(cfg, batch)
      ensures n in (if Moves(cfg, batch[0]) then {batch[0].originalname} else {}) + MovedNames(cfg, tail)
    {
      var i :| 0 <= i < |batch| && Moves(cfg, batch[i]) && batch[i].originalname == n;
      if i > 0 { assert tail[i - 1] == batch[i]; }
    }
    forall n | n in MovedNames(cfg, tail) ensures n in MovedNames(cfg, batch) {
      var i :| 0 <= i < |tail| && Moves(cfg, tail[i]) && tail[i].originalname == n;
      assert tail[i] == batch[i + 1];
    }
  }

  lemma StoredNamesSplit(cfg: Config.Config, batch: seq<Upload>)
    requires |batch| > 0
    ensures StoredNames(cfg, batch)
      == (if Moves(cfg, batch[0]) && batch[0].thumbnail.Succeeds? then {batch[0].originalname} else {})
         + StoredNames(cfg, batch[1..])
  {
    var tail := batch[1..];
    forall n | n in StoredNames(cfg, batch)
      ensures n in (if Moves(cfg, batch[0]) && batch[0].thumbnail.Succeeds? then {batch[0].originalname} else {})
                   + StoredNames(cfg, tail)
    {
      var i :| 0 <= i < |batch| && Moves(cfg, batch[i]) && batch[i].thumbnail.Succeeds? && batch[i].originalname == n;
      if i > 0 { assert tail[i - 1] == batch[i]; }
    }
    forall n | n in StoredNames(cfg, tail) ensures n in StoredNames(cfg, batch) {
      var i :| 0 <= i < |tail| && Moves(cfg, tail[i]) && tail[i].thumbnail.Succeeds? && tail[i].originalname == n;
      assert tail[i] == batch[i + 1];
    }
  }

  /**
   * With fresh temp files, every file passing the gate lands in `originals`
   * (even when its thumbnail then fails), and exactly the files reported
   * stored get a thumbnail. Uploading a name twice leaves one file of that name.
   */
  lemma {:induction false} UploadLibrary(cfg: Config.Config, st: Store, batch: seq<Upload>)
    requires FreshTempFiles(st, batch)
    ensures var r := HandleUpload(cfg, st, batch).store;
      && r.originals == st.originals + MovedNames(cfg, batch)
      && r.thumbs == st.thumbs + StoredNames(cfg, batch)
    decreases |batch|
  {
    if |batch| > 0 {
      var st1 := Step(cfg, st, batch[0]).1;
      StepEffect(cfg, st, batch[0]);
      FreshTempFilesTail(cfg, st, batch);
      UploadLibrary(cfg, st1, batch[1..]);
      MovedNamesSplit(cfg, batch);
      StoredNamesSplit(cfg, batch);
    } else {
      assert MovedNames(cfg, batch) == {};
      assert StoredNames(cfg, batch) == {};
    }
  }

  /** A file rejected by the gate leaves the library as it was and removes its temp file. */
  lemma RejectedFileLeavesLibrary(cfg: Config.Config, st: Store, u: Upload)
    requires u.metadata.Ok? && TooSmall(cfg, u.metadata.value)
    requires u.path in st.temp && u.discard.Succeeds?
    ensures var (res, st') := Step(cfg, st, u);
      && !res.ok
      && res.error == Some(LowResolutionMessage(cfg.minImageLongSide.value))
      && st'.originals == st.originals && st'.thumbs == st.thumbs
      && u.path !in st'.temp
  {
  }

  /** The gate is strict: a long side equal to the minimum is accepted. */
  lemma GateBoundary(cfg: Config.Config, st: Store, u: Upload)
    requires cfg.minImageLongSide.Some? && u.metadata.Ok?
    requires LongSide(u.metadata.value) == cfg.minImageLongSide.value
    requires u.path in st.temp && u.move.Succeeds? && u.thumbnail.Succeeds?
    ensures Step(cfg, st, u).0.ok
  {
  }

  /**
   * Storing is not atomic: when the thumbnail fails after the rename, the
   * reply says the file failed, yet its original is now in the library.
   */
  lemma ThumbnailFailureKeepsOriginal(cfg: Config.Config, st: Store, u: Upload)
    requires Moves(cfg, u) && u.path in st.temp && u.thumbnail.Throws?
    ensures var (res, st') := Step(cfg, st, u);
      && !res.ok && res.error == Some(u.thumbnail.message)
      && u.originalname in st'.originals
      && st'.thumbs == st.thumbs
  {
  }

  /**
   * A file whose temp file is gone, whose metadata cannot be read, whose
   * rejected temp file cannot be removed, or whose rename throws leaves
   * every directory as it was and is reported as failed, carrying the
   * message of what threw.
   */
  lemma FailedOperationLeavesStore(cfg: Config.Config, st: Store, u: Upload)
    requires || u.path !in st.temp
             || u.metadata.Err?
             || (u.metadata.Ok? && TooSmall(cfg, u.metadata.value) && u.discard.Throws?)
             || (PassesGate(cfg, u) && u.move.Throws?)
    ensures var (res, st') := Step(cfg, st, u);
      && !res.ok && res.error.Some?
      && st' == st
    ensures u.path !in st.temp ==> Step(cfg, st, u).0.error == Some(MissingInputMessage(u.path))
    ensures u.path in st.temp && u.metadata.Err? ==> Step(cfg, st, u).0.error == Some(u.metadata.error)
    ensures u.path in st.temp && u.metadata.Ok? && TooSmall(cfg, u.metadata.value) && u.discard.Throws?
            ==> Step(cfg, st, u).0.error == Some(u.discard.message)
    ensures u.path in st.temp && PassesGate(cfg, u) && u.move.Throws?
            ==> Step(cfg, st, u).0.error == Some(u.move.message)
  {
  }

  /** Uploading a name that is already stored overwrites it: the library's names do not change. */
  lemma ReuploadOverwrites(cfg: Config.Config, st: Store, u: Upload)
    requires u.originalname in st.originals && u.originalname in st.thumbs
    ensures var st' := Step(cfg, st, u).1;
      st'.originals == st.originals && st'.thumbs == st.thumbs
  {
  }

  // ---------------------------------------------------------------- listing

  /** One element of the `GET /api/images` reply. */
  datatype Entry = Entry(id: string, original: string, thumb: string)

  /** Names starting with a dot are skipped by the listing. */
  predicate Hidden(f: string) {
    |f| > 0 && f[0] == '.'
  }

  function EntryFor(f: string): Entry {
    Entry(f, "/images/originals/" + f, "/images/thumbs/" + f)
  }

  /**
   * `listImages` over the directory listing of `originals/`, in the order the
   * listing gives: hidden names dropped, the others mapped to their URLs.
   */
  function ListImages(listing: seq<string>): (r: seq<Entry>)
    ensures |r| <= |listing|
    ensures forall i :: 0 <= i < |r| ==> r[i] == EntryFor(r[i].id) && !Hidden(r[i].id)
    decreases |listing|
  {
    if |listing| == 0 then []
    else
      var rest := ListImages(listing[1..]);
      if Hidden(listing[0]) then rest else [EntryFor(listing[0])] + rest
  }

  /** Where in the listing entry `i` of the reply comes from. */
  ghost function SourceIndex(listing: seq<string>, i: nat): (a: nat)
    requires i < |ListImages(listing)|
    ensures a < |listing| && listing[a] == ListImages(listing)[i].id
    decreases |listing|
  {
    var rest := ListImages(listing[1..]);
    if Hidden(listing[0]) then 1 + SourceIndex(listing[1..], i)
    else if i == 0 then 0
    else 1 + SourceIndex(listing[1..], i - 1)
  }

  /** Entries keep the relative order of their names in the listing. */
  lemma {:induction false} ListImagesOrder(listing: seq<string>, i: nat, j: nat)
    requires i < j < |ListImages(listing)|
    ensures SourceIndex(listing, i) < SourceIndex(listing, j)
    decreases |listing|
  {
    if Hidden(listing[0]) {
      ListImagesOrder(listing[1..], i, j);
    } else if i > 0 {
      ListImagesOrder(listing[1..], i - 1, j - 1);
    }
  }

  /** Every visible name of the listing has an entry. */
  lemma {:induction false} ListImagesComplete(listing: seq<string>, a: nat)
    requires a < |listing| && !Hidden(listing[a])
    ensures exists i :: 0 <= i < |ListImages(listing)| && ListImages(listing)[i].id == listing[a]
    decreases |listing|
  {
    var r := ListImages(listing);
    if a == 0 {
      assert r[0].id == listing[0];
    } else {
      ListImagesComplete(listing[1..], a - 1);
      var rest := ListImages(listing[1..]);
      var i :| 0 <= i < |rest| && rest[i].id == listing[1..][a - 1];
      if Hidden(listing[0]) {
        assert r[i].id == listing[a];
      } else {
        assert r[i + 1].id == listing[a];
      }
    }
  }

  /** A directory listing names every file of the directory exactly once. */
  ghost predicate Enumerates(listing: seq<string>, dir: set<string>) {
    && (forall f :: f in listing <==> f in dir)
    && (forall i, j :: 0 <= i < j < |listing| ==> listing[i] != listing[j])
  }

  /**
   * Listed ids are exactly the visible stored originals. A file stored under a
   * name starting with a dot is in the library but never listed.
   */
  lemma ListedIds(listing: seq<string>, originals: set<string>, f: string)
    requires Enumerates(listing, originals)
    ensures (exists i :: 0 <= i < |ListImages(listing)| && ListImages(listing)[i].id == f)
            <==> f in originals && !Hidden(f)
  {
    var r := ListImages(listing);
    if f in originals && !Hidden(f) {
      var a :| 0 <= a < |listing| && listing[a] == f;
      ListImagesComplete(listing, a);
    }
    if exists i :: 0 <= i < |r| && r[i].id == f {
      var i :| 0 <= i < |r| && r[i].id == f;
      assert listing[SourceIndex(listing, i)] == f;
    }
  }

  // ---------------------------------------------------------------- deletion

  /** A handler's completion: the JSON `{ok: true}` reply, or the error it threw. */
  datatype Completion = Completed | Threw(message: string)

  /**
   * `deleteImage`: unlink the original, then the thumbnail; each unlink throws
   * when its file is missing, and nothing is undone.
   */
  function DeleteImage(st: Store, id: string): (r: (Completion, Store))
    ensures r.1.temp == st.temp
    ensures id !in st.originals ==> r.0.Threw? && r.1 == st
    ensures id in st.originals && id !in st.thumbs ==>
      r.0.Threw? && r.1.originals == st.originals - {id} && r.1.thumbs == st.thumbs
    ensures r.0.Completed? <==> id in st.originals && id in st.thumbs
    ensures r.0.Completed? ==> r.1.originals == st.originals - {id} && r.1.thumbs == st.thumbs - {id}
  {
    if id !in st.originals then
      (Threw(MissingFileMessage("unlink")), st)
    else
      var withoutOriginal := st.(originals := st.originals - {id});
      if id !in withoutOriginal.thumbs then
        (Threw(MissingFileMessage("unlink")), withoutOriginal)
      else
        (Completed, withoutOriginal.(thumbs := withoutOriginal.thumbs - {id}))
  }

  /**
   * Uploading a new name and then deleting it restores both directories; only
   * the consumed temp file is gone.
   */
  lemma UploadThenDelete(cfg: Config.Config, st: Store, u: Upload)
    requires u.originalname !in st.originals && u.originalname !in st.thumbs
    requires Moves(cfg, u) && u.path in st.temp && u.thumbnail.Succeeds?
    ensures var st1 := HandleUpload(cfg, st, [u]).store;
            var (done, st2) := DeleteImage(st1, u.originalname);
            done.Completed? && st2 == st.(temp := st.temp - {u.path})
  {
    assert [u][1..] == [];
    assert HandleUpload(cfg, st, [u]).store == Step(cfg, st, u).1;
  }

  /**
   * `handleUpload` first loads the configuration (through its cache) and then
   * processes the batch against the minimum long side it found.
   */
  datatype UploadReply = UploadReply(batch: Batch, cache: Config.Cache)

  function UploadRequest(c: Config.Cache, now: int, read: Config.ReadOutcome, st: Store, batch: seq<Upload>): (r: UploadReply)
    ensures r.cache == Config.Load(c, now, read).cache
    // the batch is checked against the configuration this very load returned
    ensures r.batch == HandleUpload(Config.Load(c, now, read).config, st, batch)
    ensures |r.batch.results| == |batch|
  {
    var loaded := Config.Load(c, now, read);
    UploadReply(HandleUpload(loaded.config, st, batch), loaded.cache)
  }

  /** With the default configuration, an image with long side 1279 is turned away and 1280 is stored. */
  lemma DefaultGate(st: Store, small: Upload, large: Upload, now: int)
    requires small.metadata == Ok(Dims(1279, 800)) && small.path in st.temp && small.discard.Succeeds?
    requires large.metadata == Ok(Dims(900, 1280)) && large.path in st.temp
    requires large.move.Succeeds? && large.thumbnail.Succeeds?
    requires small.path != large.path
    ensures var r := UploadRequest(Config.InitialCache, now, Config.NotFound, st, [small, large]).batch;
      && r.results[0] == FileResult(small.originalname, false, Some(LowResolutionMessage(1280)))
      && r.results[1] == FileResult(large.originalname, true, None)
      && large.originalname in r.store.originals
  {
    var cfg := Config.DefaultConfig;
    var (_, st1) := Step(cfg, st, small);
    StepEffect(cfg, st, small);
    StepEffect(cfg, st1, large);
    assert [small, large][1..] == [large];
    assert [large][1..] == [];
    assert HandleUpload(cfg, st1, [large]).store == Step(cfg, st1, large).1;
    assert HandleUpload(cfg, st, [small, large]).store == HandleUpload(cfg, st1, [large]).store;
    assert HandleUpload(cfg, st, [small, large]).results[1] == Step(cfg, st1, large).0;
  }
}

=== FILE: slideshow.dfy ===
/**
 * The slideshow control state machine of server/slideshow.js: one shared
 * record holding the position in the image list and whether playback runs.
 * Each request handler is a pure function from the current state to the
 * JSON reply it sends and the state left behind for the next request.
 */
module Slideshow {

  datatype State = State(index: nat, playing: bool)

  /** The state the server starts in. */
  const Initial: State := State(0, true)

  /** A handler's effect: the body it sends as JSON and the state afterwards. */
  datatype Reply = Reply(body: State, next: State)

  /** `GET /api/slideshow`: report the state, change nothing. */
  function GetState(s: State): (r: Reply)
    ensures r.next == s
    ensures r.body == s
  {
    Reply(s, s)
  }

  /**
   * `POST /api/slideshow`: the three independent `if`s of the handler, applied
   * one after the other to the shared record, then the record is sent back.
   */
  function Control(s: State, action: string): (r: Reply)
    ensures r.body == r.next
    ensures action == "next" ==> r.next.index == s.index + 1 && r.next.playing == s.playing
    ensures action == "prev" ==>
      (r.next.playing == s.playing
       && (s.index == 0 ==> r.next.index == 0)
       && (s.index > 0 ==> r.next.index + 1 == s.index))
    ensures action == "toggle" ==> r.next.index == s.index && r.next.playing != s.playing
    ensures action !in {"next", "prev", "toggle"} ==> r.next == s
  {
    var afterNext := if action == "next" then s.(index := s.index + 1) else s;
    var afterPrev := if action == "prev" then afterNext.(index := Max0(afterNext.index - 1)) else afterNext;
    var afterToggle := if action == "toggle" then afterPrev.(playing := !afterPrev.playing) else afterPrev;
    Reply(afterToggle, afterToggle)
  }

  /** `Math.max(0, x)`. */
  function Max0(x: int): nat {
    if x < 0 then 0 else x
  }

  /** The state after a series of control requests, applied in order. */
  function Run(s: State, actions: seq<string>): State
    decreases |actions|
  {
    if |actions| == 0 then s else Run(Control(s, actions[0]).next, actions[1..])
  }

  /** Number of occurrences of `a` in `actions`. */
  function Occurrences(actions: seq<string>, a: string): nat
    decreases |actions|
  {
    if |actions| == 0 then 0
    else (if actions[0] == a then 1 else 0) + Occurrences(actions[1..], a)
  }

  /** `prev` undoes `next`, from every state. */
  lemma NextThenPrev(s: State)
    ensures Control(Control(s, "next").next, "prev").next == s
  {
  }

  /** `toggle` is its own inverse. */
  lemma ToggleTwice(s: State)
    ensures Control(Control(s, "toggle").next, "toggle").next == s
  {
  }

  /** `prev` at the first image stays there. */
  lemma PrevAtStart(playing: bool)
    ensures Control(State(0, playing), "prev").next == State(0, playing)
  {
  }

  /**
   * Over any series of requests the position never moves further than one
   * step per `next` (it may fall back through `prev`), and playback is
   * running exactly when the number of toggles has the parity that keeps the
   * starting flag.
   */
  lemma {:induction false} RunBounds(s: State, actions: seq<string>)
    ensures Run(s, actions).index <= s.index + Occurrences(actions, "next")
    ensures Run(s, actions).playing == (s.playing == (Occurrences(actions, "toggle") % 2 == 0))
    decreases |actions|
  {
    if |actions| > 0 {
      RunBounds(Control(s, actions[0]).next, actions[1..]);
    }
  }

  /** From the initial state, the position is at most the number of `next` requests. */
  lemma RunFromInitial(actions: seq<string>)
    ensures Run(Initial, actions).index <= Occurrences(actions, "next")
    ensures Run(Initial, actions).playing <==> Occurrences(actions, "toggle") % 2 == 0
  {
    RunBounds(Initial, actions);
  }
}

=== FILE: weather.dfy ===
/**
 * The daily forecast of server/weather.js. The SMHI time series arrives as a
 * sequence of points (the HTTP fetch and JSON parsing are replaced by a
 * parameter); points in the small hours are ignored, the rest are grouped by
 * calendar day in order of first appearance, the first five days are kept,
 * and each day is reduced to its temperature range, whether precipitation
 * occurs, and its most frequent weather symbol. Answers are cached for 30
 * minutes against an explicit clock.
 */
module Weather {
  import opened Wrappers
  import Decimal

  /**
   * One entry of `timeSeries`, with the parameters the aggregation reads:
   * temperature `t`, weather symbol `Wsymb2`, mean precipitation `pmean` and
   * precipitation category `pcat`. Measured quantities are integers in a
   * fixed unit; only their order and sign matter below.
   */
  datatype Point = Point(validTime: string, t: int, wsymb2: nat, pmean: int, pcat: int)

  // ---------------------------------------------------------------- time stamps

  /** `validTime.slice(0, 10)`: the calendar day. */
  function DateKey(validTime: string): (d: string)
    ensures |d| == if |validTime| < 10 then |validTime| else 10
    ensures d <= validTime
  {
    if |validTime| <= 10 then validTime else validTime[..10]
  }

  /** `validTime.slice(11, 13)`: the hour text, shorter or empty when the time stamp is short. */
  function HourText(validTime: string): (h: string)
    ensures |h| <= 2
  {
    var start := if |validTime| < 11 then |validTime| else 11;
    var end := if |validTime| < 13 then |validTime| else 13;
    validTime[start..end]
  }

  /** The characters JavaScript's `Number()` strips from both ends. */
  predicate IsJsSpace(c: char) {
    c in {' ', '\t', '\n', '\r', '\U{000B}', '\U{000C}', '\U{00A0}', '\U{1680}', '\U{2028}', '\U{2029}',
          '\U{202F}', '\U{205F}', '\U{3000}', '\U{FEFF}'}
    || '\U{2000}' <= c <= '\U{200A}'
  }

  function TrimStart(s: string): (r: string)
    ensures |r| <= |s|
    decreases |s|
  {
    if |s| > 0 && IsJsSpace(s[0]) then TrimStart(s[1..]) else s
  }

  function TrimEnd(s: string): (r: string)
    ensures |r| <= |s|
    decreases |s|
  {
    if |s| > 0 && IsJsSpace(s[|s| - 1]) then TrimEnd(s[..|s| - 1]) else s
  }

  /**
   * `Number(text)` for texts of at most two characters, as far as comparing
   * it with 6 is concerned: an integer, a value strictly between 0 and 1
   * (`".5"`), or `NaN`.
   */
  datatype HourValue = Whole(n: int) | Fraction | NotANumber

  function ToNumber(text: string): (v: HourValue)
    requires |text| <= 2
  {
    var s := TrimEnd(TrimStart(text));
    if |s| == 0 then Whole(0)
    else if |s| == 1 then
      (if Decimal.IsDigit(s[0]) then Whole(Decimal.DigitValue(s[0])) else NotANumber)
    else if Decimal.IsDigit(s[0]) && Decimal.IsDigit(s[1]) then Whole(10 * Decimal.DigitValue(s[0]) + Decimal.DigitValue(s[1]))
    else if s[0] == '+' && Decimal.IsDigit(s[1]) then Whole(Decimal.DigitValue(s[1]))
    else if s[0] == '-' && Decimal.IsDigit(s[1]) then Whole(0 - Decimal.DigitValue(s[1]) as int)
    else if s[0] == '.' && Decimal.IsDigit(s[1]) then (if s[1] == '0' then Whole(0) else Fraction)
    else if Decimal.IsDigit(s[0]) && s[1] == '.' then Whole(Decimal.DigitValue(s[0]))
    else NotANumber
  }

  /** `hour < 6`: false for `NaN`, so a point whose hour cannot be read is kept. */
  predicate IsNight(p: Point) {
    match ToNumber(HourText(p.validTime))
    case Whole(n) => n < 6
    case Fraction => true
    case NotANumber => false
  }

  predicate Daytime(p: Point) {
    !IsNight(p)
  }

  /** Rain or snow: `pmean > 0 || pcat > 0`. */
  predicate Wet(p: Point) {
    p.pmean > 0 || p.pcat > 0
  }

  /** For well-formed ISO time stamps the night test is simply "hour before six". */
  lemma IsoHours(validTime: string, t: int, w: nat, pm: int, pc: int)
    requires |validTime| >= 13 && Decimal.IsDigit(validTime[11]) && Decimal.IsDigit(validTime[12])
    ensures var hour := 10 * Decimal.DigitValue(validTime[11]) + Decimal.DigitValue(validTime[12]);
      IsNight(Point(validTime, t, w, pm, pc)) <==> hour < 6
  {
    var h := HourText(validTime);
    assert h == [validTime[11], validTime[12]];
    assert TrimStart(h) == h;
    assert TrimEnd(h) == h;
  }

  // ---------------------------------------------------------------- grouping

  /** The per-day accumulator `days[date]` (the wind list is not modelled). */
  datatype Bucket = Bucket(date: string, temps: seq<int>, symbols: seq<nat>, precip: bool)

  function Extend(b: Bucket, p: Point): (r: Bucket)
    ensures r.date == b.date
    ensures |r.temps| == |b.temps| + 1 && |r.symbols| == |b.symbols| + 1
  {
    Bucket(b.date, b.temps + [p.t], b.symbols + [p.wsymb2], b.precip || Wet(p))
  }

  /** The position of the bucket for `date`, if there is one. */
  function FindBucket(bs: seq<Bucket>, date: string): (r: Option<nat>)
    ensures r.Some? ==> r.value < |bs| && bs[r.value].date == date
    ensures r.None? ==> forall i :: 0 <= i < |bs| ==> bs[i].date != date
    decreases |bs|
  {
    if |bs| == 0 then None
    else if bs[0].date == date then Some(0)
    else
      match FindBucket(bs[1..], date)
      case None => None
      case Some(k) => Some(k + 1)
  }

  /** A grouping in progress: distinct days, each with at least one reading. */
  ghost predicate WellFormed(bs: seq<Bucket>) {
    && (forall i :: 0 <= i < |bs| ==> |bs[i].temps| > 0 && |bs[i].temps| == |bs[i].symbols|)
    && (forall i, j :: 0 <= i < j < |bs| ==> bs[i].date != bs[j].date)
  }

  /** One call of the `forEach` callback on a daytime point. */
  function AddPoint(bs: seq<Bucket>, p: Point): (r: seq<Bucket>)
    requires WellFormed(bs)
    ensures WellFormed(r)
  {
    var d := DateKey(p.validTime);
    match FindBucket(bs, d)
    case Some(i) => bs[i := Extend(bs[i], p)]
    case None => bs + [Extend(Bucket(d, [], [], false), p)]
  }

  /** The `days` object after the `forEach` over the points, in insertion order. */
  function Group(ps: seq<Point>): (r: seq<Bucket>)
    ensures WellFormed(r)
    decreases |ps|
  {
    if |ps| == 0 then []
    else
      var bs := Group(ps[..|ps| - 1]);
      var p := ps[|ps| - 1];
      if IsNight(p) then bs else AddPoint(bs, p)
  }

  // ---------------------------------------------------------------- reference definitions

  /** The days of the daytime points, each once, in order of first appearance. */
  function Dates(ps: seq<Point>): seq<string>
    decreases |ps|
  {
    if |ps| == 0 then []
    else
      var ds := Dates(ps[..|ps| - 1]);
      var p := ps[|ps| - 1];
      if IsNight(p) || DateKey(p.validTime) in ds then ds else ds + [DateKey(p.validTime)]
  }

  /** A daytime point at position `a` falls on day `d`. */
  predicate OnDay(ps: seq<Point>, a: int, d: string) {
    0 <= a < |ps| && Daytime(ps[a]) && DateKey(ps[a].validTime) == d
  }

  /** The temperatures of the daytime points on day `d`, in series order. */
  function TempsOn(ps: seq<Point>, d: string): seq<int>
    decreases |ps|
  {
    if |ps| == 0 then []
    else
      var p := ps[|ps| - 1];
      TempsOn(ps[..|ps| - 1], d) + (if Daytime(p) && DateKey(p.validTime) == d then [p.t] else [])
  }

  /** The weather symbols of the daytime points on day `d`, in series order. */
  function SymbolsOn(ps: seq<Point>, d: string): seq<nat>
    decreases |ps|
  {
    if |ps| == 0 then []
    else
      var p := ps[|ps| - 1];
      SymbolsOn(ps[..|ps| - 1], d) + (if Daytime(p) && DateKey(p.validTime) == d then [p.wsymb2] else [])
  }

  /** Some daytime point on day `d` reports precipitation. */
  ghost predicate WetOn(ps: seq<Point>, d: string) {
    exists a :: OnDay(ps, a, d) && Wet(ps[a])
  }

  /** Below the last position, a series and its prefix have the same daytime points. */
  lemma OnDayPrefix(ps: seq<Point>, a: int, d: string)
    requires |ps| > 0 && a < |ps| - 1
    ensures OnDay(ps, a, d) <==> OnDay(ps[..|ps| - 1], a, d)
  {
  }

  /** A listed day stays listed when the series grows by one point. */
  lemma DatesGrow(ps: seq<Point>, d: string)
    requires |ps| > 0 && d in Dates(ps[..|ps| - 1])
    ensures d in Dates(ps)
  {
  }

  /** Every listed day has a daytime point. */
  lemma {:induction false} DatesHavePoints(ps: seq<Point>, d: string)
    requires d in Dates(ps)
    ensures exists a :: OnDay(ps, a, d)
    decreases |ps|
  {
    var pre := ps[..|ps| - 1];
    if d in Dates(pre) {
      DatesHavePoints(pre, d);
      var a :| OnDay(pre, a, d);
      OnDayPrefix(ps, a, d);
    } else {
      assert OnDay(ps, |ps| - 1, d);
    }
  }

  /** The day of every daytime point is listed. */
  lemma {:induction false} PointsHaveDates(ps: seq<Point>, a: int, d: string)
    requires OnDay(ps, a, d)
    ensures d in Dates(ps)
    decreases |ps|
  {
    var pre := ps[..|ps| - 1];
    if a < |pre| {
      OnDayPrefix(ps, a, d);
      PointsHaveDates(pre, a, d);
      DatesGrow(ps, d);
    }
  }

  /** A day is listed iff some daytime point falls on it. */
  lemma DatesCover(ps: seq<Point>, d: string)
    ensures d in Dates(ps) <==> exists a :: OnDay(ps, a, d)
  {
    if d in Dates(ps) {
      DatesHavePoints(ps, d);
    }
    if exists a :: OnDay(ps, a, d) {
      var a :| OnDay(ps, a, d);
      PointsHaveDates(ps, a, d);
    }
  }

  /** A day with no daytime point has no readings. */
  lemma {:induction false} NoPointsNoReadings(ps: seq<Point>, d: string)
    requires forall a :: !OnDay(ps, a, d)
    ensures TempsOn(ps, d) == [] && SymbolsOn(ps, d) == [] && !WetOn(ps, d)
    decreases |ps|
  {
    if |ps| > 0 {
      var pre := ps[..|ps| - 1];
      forall a ensures !OnDay(pre, a, d) {
        if a < |pre| { OnDayPrefix(ps, a, d); }
      }
      NoPointsNoReadings(pre, d);
      assert !OnDay(ps, |ps| - 1, d);
    }
  }

  /** Appending one point extends the precipitation test by that point. */
  lemma WetOnSnoc(ps: seq<Point>, d: string)
    requires |ps| > 0
    ensures var p := ps[|ps| - 1];
      WetOn(ps, d) <==> WetOn(ps[..|ps| - 1], d) || (Daytime(p) && DateKey(p.validTime) == d && Wet(p))
  {
    var pre := ps[..|ps| - 1];
    if WetOn(pre, d) {
      var a :| OnDay(pre, a, d) && Wet(pre[a]);
      OnDayPrefix(ps, a, d);
      assert OnDay(ps, a, d) && Wet(ps[a]);
    }
    if WetOn(ps, d) {
      var a :| OnDay(ps, a, d) && Wet(ps[a]);
      if a < |pre| {
        OnDayPrefix(ps, a, d);
        assert OnDay(pre, a, d) && Wet(pre[a]);
      }
    }
  }

  /** The bucket a reference day should produce. */
  ghost function ExpectedBucket(ps: seq<Point>, d: string): Bucket {
    Bucket(d, TempsOn(ps, d), SymbolsOn(ps, d), WetOn(ps, d))
  }

  /** A point that is not a daytime point of day `d` leaves that day's readings alone. */
  lemma ExpectedBucketOther(ps: seq<Point>, d: string)
    requires |ps| > 0
    requires var p := ps[|ps| - 1]; !(Daytime(p) && DateKey(p.validTime) == d)
    ensures ExpectedBucket(ps, d) == ExpectedBucket(ps[..|ps| - 1], d)
  {
    var pre := ps[..|ps| - 1];
    WetOnSnoc(ps, d);
    assert TempsOn(ps, d) == TempsOn(pre, d) + [];
    assert SymbolsOn(ps, d) == SymbolsOn(pre, d) + [];
  }

  /** A daytime point of day `d` adds its readings to that day. */
  lemma ExpectedBucketSame(ps: seq<Point>)
    requires |ps| > 0 && Daytime(ps[|ps| - 1])
    ensures var p := ps[|ps| - 1];
            var d := DateKey(p.validTime);
      ExpectedBucket(ps, d) == Extend(ExpectedBucket(ps[..|ps| - 1], d), p)
  {
    WetOnSnoc(ps, DateKey(ps[|ps| - 1].validTime));
  }

  /** The grouping of `ps` agrees with the reference days of `ps`. */
  ghost predicate MatchesReference(ps: seq<Point>) {
    && |Group(ps)| == |Dates(ps)|
    && forall i :: 0 <= i < |Group(ps)| ==> Group(ps)[i] == ExpectedBucket(ps, Dates(ps)[i])
  }

  lemma GroupStepNight(ps: seq<Point>)
    requires |ps| > 0 && IsNight(ps[|ps| - 1])
    requires MatchesReference(ps[..|ps| - 1])
    ensures MatchesReference(ps)
  {
    var pre := ps[..|ps| - 1];
    forall i | 0 <= i < |Group(ps)| ensures Group(ps)[i] == ExpectedBucket(ps, Dates(ps)[i]) {
      ExpectedBucketOther(ps, Dates(pre)[i]);
    }
  }

  lemma GroupStepKnownDay(ps: seq<Point>, k: nat)
    requires |ps| > 0 && Daytime(ps[|ps| - 1])
    requires MatchesReference(ps[..|ps| - 1])
    requires FindBucket(Group(ps[..|ps| - 1]), DateKey(ps[|ps| - 1].validTime)) == Some(k)
    ensures MatchesReference(ps)
  {
    var pre := ps[..|ps| - 1];
    var p := ps[|ps| - 1];
    var bs := Group(pre);
    var ds := Dates(pre);
    var d := DateKey(p.validTime);
    assert ds[k] == d;
    assert Dates(ps) == ds;
    assert Group(ps) == bs[k := Extend(bs[k], p)];
    forall i | 0 <= i < |Group(ps)| ensures Group(ps)[i] == ExpectedBucket(ps, Dates(ps)[i]) {
      if i == k {
        ExpectedBucketSame(ps);
      } else {
        assert bs[i].date != bs[k].date;
        ExpectedBucketOther(ps, ds[i]);
      }
    }
  }

  lemma GroupStepNewDay(ps: seq<Point>)
    requires |ps| > 0 && Daytime(ps[|ps| - 1])
    requires MatchesReference(ps[..|ps| - 1])
    requires FindBucket(Group(ps[..|ps| - 1]), DateKey(ps[|ps| - 1].validTime)).None?
    ensures MatchesReference(ps)
  {
    var pre := ps[..|ps| - 1];
    var p := ps[|ps| - 1];
    var bs := Group(pre);
    var ds := Dates(pre);
    var d := DateKey(p.validTime);
    forall k | 0 <= k < |ds| ensures ds[k] != d {
      assert bs[k].date == ds[k];
    }
    assert Dates(ps) == ds + [d];
    assert Group(ps) == bs + [Extend(Bucket(d, [], [], false), p)];
    DatesCover(pre, d);
    NoPointsNoReadings(pre, d);
    forall i | 0 <= i < |Group(ps)| ensures Group(ps)[i] == ExpectedBucket(ps, Dates(ps)[i]) {
      if i == |bs| {
        ExpectedBucketSame(ps);
      } else {
        assert ds[i] != d;
        ExpectedBucketOther(ps, ds[i]);
      }
    }
  }

  /**
   * The grouping agrees with the reference: one bucket per day in order of
   * first appearance, holding exactly that day's daytime readings.
   */
  lemma {:induction false} GroupMatchesReference(ps: seq<Point>)
    ensures |Group(ps)| == |Dates(ps)|
    ensures forall i :: 0 <= i < |Group(ps)| ==> Group(ps)[i] == ExpectedBucket(ps, Dates(ps)[i])
    decreases |ps|
  {
    if |ps| > 0 {
      var pre := ps[..|ps| - 1];
      var p := ps[|ps| - 1];
      GroupMatchesReference(pre);
      if IsNight(p) {
        GroupStepNight(ps);
      } else {
        match FindBucket(Group(pre), DateKey(p.validTime))
        case Some(k) => GroupStepKnownDay(ps, k);
        case None => GroupStepNewDay(ps);
      }
    }
  }

  /**
   * Days are listed in order of first appearance: an earlier-listed day has a
   * daytime point before any daytime point of a later-listed day.
   */
  lemma {:induction false} DatesFirstAppearance(ps: seq<Point>, i: nat, j: nat, b: nat)
    requires i < j < |Dates(ps)|
    requires OnDay(ps, b, Dates(ps)[j])
    ensures exists a :: a < b && OnDay(ps, a, Dates(ps)[i])
    decreases |ps|
  {
    var pre := ps[..|ps| - 1];
    var ds := Dates(pre);
    assert Dates(ps)[i] == ds[i];
    if b < |pre| {
      OnDayPrefix(ps, b, Dates(ps)[j]);
      DatesCover(pre, Dates(ps)[j]);
      // a day with a point in `pre` was already listed before the last point
      assert j < |ds|;
      assert Dates(ps)[j] == ds[j];
      DatesFirstAppearance(pre, i, j, b);
      var a :| a < b && OnDay(pre, a, ds[i]);
      OnDayPrefix(ps, a, ds[i]);
    } else {
      DatesCover(pre, ds[i]);
      var a :| OnDay(pre, a, ds[i]);
      OnDayPrefix(ps, a, ds[i]);
    }
  }

  // ---------------------------------------------------------------- reducing a day

  function Min(s: seq<int>): (m: int)
    requires |s| > 0
    ensures m in s && forall x :: x in s ==> m <= x
    decreases |s|
  {
    if |s| == 1 then s[0]
    else
      var rest := Min(s[1..]);
      assert forall x :: x in s ==> x == s[0] || x in s[1..];
      if s[0] <= rest then s[0] else rest
  }

  function Max(s: seq<int>): (m: int)
    requires |s| > 0
    ensures m in s && forall x :: x in s ==> x <= m
    decreases |s|
  {
    if |s| == 1 then s[0]
    else
      var rest := Max(s[1..]);
      assert forall x :: x in s ==> x == s[0] || x in s[1..];
      if s[0] >= rest then s[0] else rest
  }

  /** How often `x` occurs in `s`: the value of `symbolCounts[x]`. */
  function Count(s: seq<nat>, x: nat): nat
    decreases |s|
  {
    if |s| == 0 then 0 else (if s[0] == x then 1 else 0) + Count(s[1..], x)
  }

  lemma {:induction false} CountAbsent(s: seq<nat>, x: nat)
    requires x !in s
    ensures Count(s, x) == 0
    decreases |s|
  {
    if |s| > 0 {
      assert x !in s[1..];
      CountAbsent(s[1..], x);
    }
  }

  /**
   * The winner among the candidate codes `cs`: highest count in `s`, lowest
   * code among equal counts. `Object.entries` lists the integer keys of
   * `symbolCounts` in ascending order and the sort by count is stable.
   */
  function Best(s: seq<nat>, cs: seq<nat>): (m: nat)
    requires |cs| > 0
    ensures m in cs
    ensures forall x :: x in cs ==> Count(s, x) < Count(s, m) || (Count(s, x) == Count(s, m) && m <= x)
    decreases |cs|
  {
    if |cs| == 1 then cs[0]
    else
      var b := Best(s, cs[1..]);
      assert forall x :: x in cs ==> x == cs[0] || x in cs[1..];
      if Count(s, cs[0]) > Count(s, b) || (Count(s, cs[0]) == Count(s, b) && cs[0] <= b) then cs[0] else b
  }

  /** The day's symbol: a most frequent code, the lowest one on a tie. */
  function Mode(s: seq<nat>): (m: nat)
    requires |s| > 0
    ensures m in s
    ensures forall x :: Count(s, x) <= Count(s, m)
    ensures forall x :: x in s && Count(s, x) == Count(s, m) ==> m <= x
  {
    var m := Best(s, s);
    forall x ensures Count(s, x) <= Count(s, m) {
      if x !in s { CountAbsent(s, x); }
    }
    m
  }

  /** The mode is pinned down by its contract: no other code has both properties. */
  lemma ModeUnique(s: seq<nat>, c: nat)
    requires |s| > 0 && c in s
    requires forall x :: Count(s, x) <= Count(s, c)
    requires forall x :: x in s && Count(s, x) == Count(s, c) ==> c <= x
    ensures c == Mode(s)
  {
    var m := Mode(s);
    assert Count(s, m) <= Count(s, c) && Count(s, c) <= Count(s, m);
  }

  /** One element of the reply (the mean wind is not modelled). */
  datatype Day = Day(date: string, min: int, max: int, precip: bool, symbol: nat)

  function Summarize(b: Bucket): (d: Day)
    requires |b.temps| > 0 && |b.symbols| > 0
    ensures d.date == b.date && d.precip == b.precip
    ensures d.min <= d.max && d.min in b.temps && d.max in b.temps
    ensures forall x :: x in b.temps ==> d.min <= x <= d.max
    ensures d.symbol in b.symbols && forall x :: Count(b.symbols, x) <= Count(b.symbols, d.symbol)
  {
    Day(b.date, Min(b.temps), Max(b.temps), b.precip, Mode(b.symbols))
  }

  function Summaries(bs: seq<Bucket>): (r: seq<Day>)
    requires forall i :: 0 <= i < |bs| ==> |bs[i].temps| > 0 && |bs[i].symbols| > 0
    ensures |r| == |bs|
    ensures forall i :: 0 <= i < |bs| ==> r[i] == Summarize(bs[i])
    decreases |bs|
  {
    if |bs| == 0 then [] else [Summarize(bs[0])] + Summaries(bs[1..])
  }

  /** The number of days reported. */
  const MaxDays: nat := 5

  /** The reduction of `getWeather`: group, keep the first five days, summarise each. */
  function Aggregate(ps: seq<Point>): (r: seq<Day>)
    ensures |r| <= MaxDays
    ensures |r| == if |Dates(ps)| < MaxDays then |Dates(ps)| else MaxDays
    ensures forall i :: 0 <= i < |r| ==> r[i].date == Dates(ps)[i]
    ensures forall i :: 0 <= i < |r| ==>
      && r[i].min <= r[i].max
      && r[i].min in TempsOn(ps, r[i].date) && r[i].max in TempsOn(ps, r[i].date)
      && (forall x :: x in TempsOn(ps, r[i].date) ==> r[i].min <= x <= r[i].max)
      && (r[i].precip <==> WetOn(ps, r[i].date))
      && |SymbolsOn(ps, r[i].date)| > 0
      && r[i].symbol == Mode(SymbolsOn(ps, r[i].date))
  {
    var bs := Group(ps);
    GroupMatchesReference(ps);
    var kept := if |bs| < MaxDays then bs else bs[..MaxDays];
    Summaries(kept)
  }

  /** No day is listed twice. */
  lemma {:induction false} DatesDistinct(ps: seq<Point>)
    ensures forall i, j :: 0 <= i < j < |Dates(ps)| ==> Dates(ps)[i] != Dates(ps)[j]
    decreases |ps|
  {
    if |ps| > 0 {
      DatesDistinct(ps[..|ps| - 1]);
    }
  }

  /** Reported days are distinct. */
  lemma AggregateDistinct(ps: seq<Point>)
    ensures var r := Aggregate(ps);
      forall i, j :: 0 <= i < j < |r| ==> r[i].date != r[j].date
  {
    DatesDistinct(ps);
  }

  /** Some daytime point falls on day `d`. */
  ghost predicate HasDaytimePoint(ps: seq<Point>, d: string) {
    exists a :: OnDay(ps, a, d)
  }

  /** Every reported day has at least one daytime point. */
  lemma AggregateDaysOccur(ps: seq<Point>)
    ensures var r := Aggregate(ps);
      forall i :: 0 <= i < |r| ==> HasDaytimePoint(ps, r[i].date)
  {
    var r := Aggregate(ps);
    forall i | 0 <= i < |r| ensures HasDaytimePoint(ps, r[i].date) {
      var d := Dates(ps)[i];
      DatesCover(ps, d);
      assert r[i].date == d;
    }
  }

  // ---------------------------------------------------------------- the cache

  /** The module-level `cache` and `lastFetch`. */
  datatype WeatherCache = WeatherCache(cached: Option<seq<Day>>, lastFetch: int)

  const InitialCache: WeatherCache := WeatherCache(None, 0)

  /** Thirty minutes in milliseconds. */
  const CacheTime: int := 30 * 60 * 1000

  /** A cached reply exists (even an empty day list counts) and is younger than the cache time. */
  predicate Fresh(c: WeatherCache, now: int) {
    c.cached.Some? && now - c.lastFetch < CacheTime
  }

  /** The reply of `getWeather` (or the error it throws) and the cache afterwards. */
  datatype Answer = Answer(reply: Result<seq<Day>, string>, cache: WeatherCache)

  /**
   * `getWeather` at clock reading `now`; `fetch` is what fetching the forecast
   * would yield and `fetchedAt` the clock reading once it has arrived.
   */
  function GetWeather(c: WeatherCache, now: int, fetch: Result<seq<Point>, string>, fetchedAt: int): (r: Answer)
    ensures Fresh(c, now) ==> r == Answer(Ok(c.cached.value), c)
    ensures !Fresh(c, now) && fetch.Ok? ==>
      r.reply == Ok(Aggregate(fetch.value)) && r.cache == WeatherCache(Some(Aggregate(fetch.value)), fetchedAt)
    ensures !Fresh(c, now) && fetch.Err? ==> r == Answer(Err(fetch.error), c)
  {
    if c.cached.Some? && now - c.lastFetch < CacheTime then Answer(Ok(c.cached.value), c)
    else
      match fetch
      case Err(e) => Answer(Err(e), c)
      case Ok(ps) =>
        var days := Aggregate(ps);
        Answer(Ok(days), WeatherCache(Some(days), fetchedAt))
  }

  /** A fresh reply is served again within thirty minutes of the fetch, whatever the network would say. */
  lemma CachedWithinWindow(c: WeatherCache, now: int, fetch: Result<seq<Point>, string>, fetchedAt: int,
                           later: int, fetch2: Result<seq<Point>, string>, fetchedAt2: int)
    requires !Fresh(c, now) && fetch.Ok?
    requires later < fetchedAt + CacheTime
    ensures var first := GetWeather(c, now, fetch, fetchedAt);
      GetWeather(first.cache, later, fetch2, fetchedAt2) == Answer(first.reply, first.cache)
  {
  }

  /** A failed fetch changes nothing, so the next request tries again. */
  lemma FailedFetchRetries(c: WeatherCache, now: int, e: string, fetchedAt: int)
    requires !Fresh(c, now)
    ensures GetWeather(c, now, Err(e), fetchedAt).cache == c
  {
  }
}

=== FILE: wrappers.dfy ===
/** Option and Result: absent values and operations that can fail. */
module Wrappers {

  /** A value that may be missing (JavaScript `undefined`/`null`, or a key that is absent). */
  datatype Option<+T> = None | Some(value: T)

  /** The outcome of an operation that either yields a value or raises an error. */
  datatype Result<+T, +E> = Ok(value: T) | Err(error: E)
}
